=== FILE: README.md ===
# Request gating in the marketplace's ApplicationController

This project models, in Dafny, the before-filters that every request to the
multi-tenant marketplace passes through before a controller action runs. The
request, the signed-in person, the community directory and the application
config are immutable snapshots. Each filter is a pure function on a
per-request context. It either lets the request continue or halts it with a
redirect. `set_locale` may also fail with its `ArgumentError`. The chain is a
fold over the declared filters that stops at the first filter that halts or
fails, which is the Rails callback terminator.

Modules, in dependency order:

- `Values`: nil-able values, and the Ruby presence helpers (`Maybe`, `present?`) for strings. It also holds "first matching record" lookups.
- `Strings`: the `String` methods the controller calls: `chomp`, `include?`, `slice!` and the `/^\//` test.
- `Snapshot`: the snapshots (request, user, community, config), redirect targets, and the context with its two parts. The core holds user, community, membership and locale. The effects hold session, flash and recorded request state.
- `Locale`: `select_locale` and the deciding parts of `set_locale`.
- `Tenancy`: the community lookup ladder, the redirect when no community is found, and the canonical-domain redirect.
- `Transport`: `force_ssl` and `check_auth_token`.
- `Access`: the join gate, the organisations-only gate and the e-mail confirmation gate.
- `Filters`: the declared filter chain with its `:except` lists, the effect of each filter, the fold, and the chain-level properties.

The main chain-level results:

- `Filters.ReachingHandler`: a request that reaches the action has passed every check.
- `Filters.JoinGateComesFirst`: the join gate fires before the organisations-only gate.
- `Filters.EarlyHaltRecordsNothing`: an early redirect prevents the event id and the mailer URL from being recorded.

Three points of the code's behaviour that are easy to misread:

- The join gate (line 30) is declared before the organisations-only gate (line 31). So a private, non-member, non-banned user in an organisations-only community is sent to the join form. Only the ban check runs ahead of the join redirect, inside the join gate.
- `session[:invitation_code]` is written from `params[:code]`, and only on the join path.
- The e-mail gate is skipped when `params[:controller] == 'devise/confirmations'`. The warning flash is still set in that case.

Assumptions about code that this model does not include:

- `Maybe(...)` comes from the `possibly` library, which is not part of this model. It is modelled as turning nil and zero-length values into None.
- `present?` is modelled as "not nil and not only ASCII whitespace".
- `@current_user.communities` is taken to be the communities where the user's membership is accepted. So `fetch_community_membership` finds a membership exactly when the community's id is in `User.acceptedIn`.

## Model

| member | source | states |
|---|---|---|
| Values.MaybeString | app/controllers/application_controller.rb:47-50 | `Maybe` on a string keeps it exactly when it is neither nil nor empty |
| Values.PresentIsNotBlank | app/controllers/application_controller.rb:197 | a present string is kept by `Maybe`; a string is not present exactly when it is nil or whitespace only |
| Values.First | app/controllers/application_controller.rb:107 | the lookup returns a matching element that no earlier element matches, and nothing exactly when no element matches |
| Strings.Chomp | app/controllers/application_controller.rb:216 | chomping a non-empty suffix removes it exactly when the string ends with it, otherwise the string is unchanged |
| Strings.ChompAppended | app/controllers/application_controller.rb:216 | chomp undoes appending the suffix: the ident comes back from "<ident>.<app domain>" |
| Strings.IndexOf | app/controllers/application_controller.rb:389 | the substring search returns the first position where the substring occurs, and none when it occurs nowhere |
| Strings.Includes | app/controllers/application_controller.rb:389 | `include?` holds exactly when the substring occurs at some position |
| Strings.SliceFirst | app/controllers/application_controller.rb:102 | `slice!` removes the substring at its first occurrence, so that putting it back there restores the original, and leaves a string without an occurrence unchanged |
| Strings.LineStartsWithSlashMeaning | app/controllers/application_controller.rb:102 | the `/^\//` test holds exactly when some slash starts the string or follows a newline |
| Locale.FirstSupported | app/controllers/application_controller.rb:44-56 | reference rule: the first non-nil, non-empty candidate the community supports, else the fallback; the result is supported or is the fallback |
| Locale.SelectLocale | app/controllers/application_controller.rb:44-56 | `select_locale` agrees with the reference rule over the candidates [user locale, locale parameter] with the community default as fallback |
| Locale.SelectLocalePrecedence | app/controllers/application_controller.rb:44-56 | a supported user locale wins; otherwise a supported parameter; otherwise the community default, which is not checked against the supported list |
| Locale.UserLocaleOverridesParam | app/controllers/application_controller.rb:46-50 | when the user's locale is supported, the locale parameter has no influence |
| Locale.UnsupportedUserLocaleFallsToParam | app/controllers/application_controller.rb:44-56 | user `fr`, supported `en`/`es`, parameter `es` gives `es` |
| Locale.ReturnTo | app/controllers/application_controller.rb:101-104 | the return-to path is never longer than the request path |
| Locale.ReturnToRemovesFirstSegment | app/controllers/application_controller.rb:100-103 | for any path "<before>/<locale><after>" whose first "/<locale>" is the one after `before`, the return-to path is `before + after`, trimmed of its first character when some line of it starts with "/" |
| Locale.ReturnToWithoutLocaleParam | app/controllers/application_controller.rb:100-103 | without a `locale` parameter the first "/" of the path is removed before the trim |
| Locale.ReturnToInnerSegment | app/controllers/application_controller.rb:100-103 | a locale segment that is not at the front is still removed: "/li/en" with locale `en` gives "li" |
| Locale.ReturnToDropsLocaleSegment | app/controllers/application_controller.rb:101-104 | for "/<locale><rest>" with `rest` empty or starting with "/", the return-to path is `rest` without its leading slash |
| Locale.SetLocale | app/controllers/application_controller.rb:58-108 | the locale is the negotiated one under the no-community defaults; it is kept exactly when it is an available locale, else the request fails; without a community it is "en"; a customization is found exactly when the community has one for that locale, and it is the first such one |
| Locale.SetLocaleTakesFirstCustomization | app/controllers/application_controller.rb:105-107 | of several customizations for the chosen locale, the earliest listed is the one taken |
| Locale.UserLocale | app/controllers/application_controller.rb:59 | the user locale candidate, when there is one, is the signed-in user's stored preference and is never empty; a non-empty stored preference is always the candidate |
| Locale.CommunityDefaultLocale | app/controllers/application_controller.rb:71 | the default locale is never empty: the community's when it is non-nil and non-empty, else "en" |
| Tenancy.DefaultCommunityFetchStrategy | app/controllers/application_controller.rb:206-232 | a domain match wins over an ident match, which wins over the single-community fallback; nil exactly when there is no domain match, no ident match and the directory does not hold exactly one community |
| Tenancy.SubdomainResolvesByIdent | app/controllers/application_controller.rb:214-221 | a host "<ident>.<app domain>" claimed by no community's domain resolves to the community with that ident |
| Tenancy.IdentOfSubdomain | app/controllers/application_controller.rb:215-216 | `sub.example.com` under app domain `example.com` names ident `sub` |
| Tenancy.SingleCommunityAlwaysResolves | app/controllers/application_controller.rb:223-228 | a directory with one community resolves every host to it |
| Tenancy.UnresolvedRedirect | app/controllers/application_controller.rb:161-171 | a configured not-found redirect always wins; otherwise the target is the new-community page exactly when the directory is empty, else the not-found page; status 302 |
| Tenancy.FetchCommunity | app/controllers/application_controller.rb:157-183 | the request is resolved exactly when the strategy finds a community, and then to that very community, which belongs to the directory; otherwise it gets the unresolved redirect |
| Tenancy.EmptyDirectoryGoesToNewCommunity | app/controllers/application_controller.rb:163-171 | an empty directory never resolves and goes to the configured redirect or the new-community page |
| Tenancy.NoMatchAmongManyIsNotFound | app/controllers/application_controller.rb:163-171 | several communities, no match and no configured redirect give the not-found page |
| Tenancy.NeedsRedirect | app/controllers/application_controller.rb:196-198 | a redirect is needed exactly when the domain is non-nil, differs from the host and is not all whitespace (`present?`); such a domain is kept by `Maybe`, and a host equal to the domain never needs one |
| Tenancy.RedirectToMarketplaceDomain | app/controllers/application_controller.rb:185-198 | no community, no redirect; a redirect happens exactly when the community's domain is present and differs from the host; it is a 301 to protocol + domain + full path |
| Tenancy.MarketplaceRedirectSettles | app/controllers/application_controller.rb:185-198 | the redirected request, arriving on the community's domain, is not redirected again |
| Transport.ForceSsl | app/controllers/application_controller.rb:386-391 | an upgrade happens exactly when `always_use_ssl` is set, the request is not SSL, the Via header does not contain `sharetribe_proxy` and the path is not `/robots.txt`; it goes to https + host with port + full path |
| Transport.ForceSslSettles | app/controllers/application_controller.rb:386-391 | the same request over SSL is not upgraded again |
| Transport.ProxiedRequestIsNotUpgraded | app/controllers/application_controller.rb:389 | any Via header containing `sharetribe_proxy` exempts the request |
| Transport.CheckAuthToken | app/controllers/application_controller.rb:371-384 | a redirect happens exactly when the token lookup finds a person; that person is signed in and the redirect goes to the path without the `auth` parameter |
| Access.CannotAccessWithoutJoining | app/controllers/application_controller.rb:248-261 | no user, a membership or admin status let the request through unchanged; otherwise a banned user goes to access-denied and any other to the join form; the session's invitation code changes only on the join path and only to a non-nil `code` parameter (an empty one included); a halt keeps the flash and changes nothing else |
| Access.BannedOutsiderIsDenied | app/controllers/application_controller.rb:251-255 | a banned non-member non-admin is denied access, never sent to the join form, and the invitation code is untouched |
| Access.CanAccessOnlyOrganizationsCommunities | app/controllers/application_controller.rb:263-271 | redirects to login, signed out and warned, exactly when the community is organisations-only and the user is not an organisation; nothing else changes |
| Access.CheckEmailConfirmation | app/controllers/application_controller.rb:273-280 | a pending confirmation always sets the warning; it redirects to confirmation-pending exactly when the controller is not `devise/confirmations`; a pending confirmation changes nothing but the warning, and no pending confirmation changes nothing |
| Filters.BeforeFilters | app/controllers/application_controller.rb:17-38 | the declarations start with the first call's thirteen filters without `:except` and end with the analytics push |
| Filters.NoFilterDeclaredTwice | app/controllers/application_controller.rb:17-38 | no filter is declared twice, so no declaration replaces another |
| Filters.DeclaredExceptions | app/controllers/application_controller.rb:30-35 | only the join gate and the e-mail gate carry `:except` lists, and the translation fetch is declared exactly when the config value is "true" |
| Filters.LaterEntriesShape | app/controllers/application_controller.rb:30-38 | the later declarations end with the analytics push, repeat no filter, and hold the translation fetch exactly when configured |
| Filters.Applicable | app/controllers/application_controller.rb:30-32 | a filter runs for an action exactly when some declaration of it does not list the action in its `:except` |
| Filters.ChainShape | app/controllers/application_controller.rb:17-38 | the chain for an action is the first declaration's filters in order, then the join gate (unless skipped), the organisations-only gate, the e-mail gate (unless skipped), the optional translation fetch and the analytics push |
| Filters.GatesForAction | app/controllers/application_controller.rb:30-32 | the join gate is skipped exactly for `confirmation_pending` and `check_email_availability`, the e-mail gate exactly for `confirmation_pending` and `check_email_availability_and_validity`; the organisations-only gate always runs |
| Filters.Apply | app/controllers/application_controller.rb:58-391 | only `set_locale` can raise, and only the upgrade, the token exchange, the community lookup, the domain redirect and the three gates can redirect |
| Filters.FetchLoggedInUserStep | app/controllers/application_controller.rb:116-120 | `fetch_logged_in_user` never redirects, makes the signed-in person the current user, and changes nothing without one |
| Filters.FetchCommunityMembershipStep | app/controllers/application_controller.rb:236-245 | `fetch_community_membership` never redirects and records a membership exactly when the user has an accepted one in the community, touching nothing else |
| Filters.GenerateEventIdStep | app/controllers/application_controller.rb:330-334 | `generate_event_id` never redirects and only marks the event id as generated |
| Filters.SetDefaultUrlForMailerStep | app/controllers/application_controller.rb:282-288 | `set_default_url_for_mailer` never redirects and only sets the mailer host to the community's full domain, or "www." + configured domain, with https exactly when `always_use_ssl` is set |
| Filters.Run | app/controllers/application_controller.rb:17-38 | a run raises only if `set_locale` is among its filters |
| Filters.RunHaltsOnlyAtRedirects | app/controllers/application_controller.rb:17-38 | a run redirects only if one of its filters can redirect |
| Filters.RunAppend | app/controllers/application_controller.rb:17-38 | running two filter lists in sequence runs the second only when the first let the request through |
| Filters.ShortCircuit | app/controllers/application_controller.rb:17-38 | once a run halts or fails, later filters change nothing |
| Filters.ApplyDecidedByCore | app/controllers/application_controller.rb:248-280 | the filters that do not settle user, community, membership or locale never fail; they redirect exactly as the decision table says, keep the core, and their redirect depends only on the core |
| Filters.RunDecidedByCore | app/controllers/application_controller.rb:30-32 | over such filters the run reaches the end exactly when no filter blocks on the starting core |
| Filters.FirstBlockDecides | app/controllers/application_controller.rb:30-32 | over such filters the first blocking filter decides the redirect |
| Filters.ResolvingOutcome | app/controllers/application_controller.rb:17-23 | after the first seven filters let a request through, it needs no upgrade, has no login token, its user is the session's, its community is the one the strategy finds and sits on its own domain, membership means accepted membership, and the locale is available |
| Filters.PassesTransport | app/controllers/application_controller.rb:17-18 | getting past the HTTPS upgrade and the token exchange leaves the context as it was and means the request is exempt from the upgrade and carries no login token |
| Filters.IdentifiesUserAndCommunity | app/controllers/application_controller.rb:19-20 | getting past user and community lookup sets the user to the session's (when there is one) and the community to the one the strategy finds, touching nothing else |
| Filters.SettlesDomainAndMembership | app/controllers/application_controller.rb:21-22 | getting past the domain redirect means the community sits on its own domain; the membership flag then holds exactly when the user has an accepted membership there |
| Filters.SettlesLocale | app/controllers/application_controller.rb:23 | getting past `set_locale` leaves an available locale and keeps user, community, membership and the recorded state |
| Filters.ReachingHandler | app/controllers/application_controller.rb:17-32 | a request reaching the action has a community on its own domain and an available locale; unless skipped, it passed the join gate and the e-mail gate; it is never a private user in an organisations-only community |
| Filters.JoinGateComesFirst | app/controllers/application_controller.rb:30-31 | a non-member, non-banned private user in an organisations-only community is sent to the join form, not to login |
| Filters.AdmittedByGates | app/controllers/application_controller.rb:30-32 | once the core is settled, getting through the rest of the chain keeps the core and means the user is not an outsider (unless the action skips the join gate), not a private user in an organisations-only community, and not held by a pending confirmation outside the confirmation controller (unless the action skips the e-mail gate) |
| Filters.JoinGateDecides | app/controllers/application_controller.rb:30-31 | after the settling filters, a non-banned outsider is sent to the join form whatever the later gates would decide |
| Filters.RunKeepsRecords | app/controllers/application_controller.rb:17-38 | filters other than the event-id and mailer filters never change the recorded event id or mailer URL, whether the run continues or halts |
| Filters.EarlyHaltRecordsNothing | app/controllers/application_controller.rb:17-25 | a redirect or failure in the first seven filters is the whole chain's result, with no event id generated and no mailer URL set |
| Filters.RecordingOutcome | app/controllers/application_controller.rb:282-288 | the recording filters never redirect; they generate the event id and set the mailer URL to the community's full domain, or "www." + configured domain without a community, with https when `always_use_ssl` is set |
| Filters.ReachingHandlerRecorded | app/controllers/application_controller.rb:282-288 | a request reaching the action has its event id and its mailer URL on the community's full domain |

## Left out

- Translation loading for the community and the `CommunityBackend` writes (lines 73-86), the thread-stored service name (line 97) and `fetch_translations` (lines 367-369). These are external services and global I18n state. The filter `FetchTranslations` is in the chain but changes nothing.
- `generate_event_id` (lines 330-334): the id's value depends on a clock and on `EventIdHelper`, which is not part of this model. Only the fact that an id was generated is recorded.
- The `Delayed::Job` page-load enqueue in `fetch_community_membership` (lines 240-242). It is a job-queue side effect.
- The Chargebee config copy (lines 298-303), `fetch_community_admin_status` (lines 290-292), the plan-expiry query (lines 294-296), the PayPal warning (lines 306-312) and `push_reported_analytics_event_to_js` (lines 360-365). These are database, view and session plumbing that never redirect. Their filters are in the chain and change nothing.
- `feature_flags` (lines 393-395) is a helper, not a before-filter, and is left out.
- Transport.CheckAuthToken: `UserService` token exchange, `Person.find` and `URLUtils.remove_query_param` are not part of this model. Their results are request fields (`tokenUser`, `pathWithoutAuth`), so single use of a token is not modelled.
- `available_locales` is a helper this file does not define. Its list is the input `Env.available`.
- The community's customizations are taken in the order the database returns them for `where(...).first`, which is taken to be id order. The model reads them as the list `Community.customizations` in that order.
- `URLUtils.strip_port_from_host` is not part of this model. Its result for the configured domain is the input `Env.appDomain`.
- Tenancy.DefaultCommunityFetchStrategy: domain and ident matching is exact string equality. The database collation, which may ignore case, is not modelled.
- Values.Present: Unicode whitespace does not count as blank; only ASCII whitespace does.
- `session_unauthorized` and its `rescue_from` (lines 40, 316-322) are left out: the notification side effects and the upstream session check are outside the filters.
- The `ActionMailer` global write (lines 282-288) is modelled as a context field, not as process-wide state. `protect_from_forgery`, the layout, the helpers and `default_url_options` are left out.
- Concurrency between requests is left out: each request is one pure run.

=== FILE: access.dfy ===
/** The access gates that run once the user, the community and the
    membership are known: the join gate, the organisations-only gate and the
    e-mail confirmation gate. Each reads the context and either lets the
    request through or halts it with a redirect. */
module Access {
  import opened Values
  import opened Snapshot

  /** A signed-in user who is neither a member nor a site administrator. */
  predicate Outsider(core: Core) {
    core.user.Some? && !(core.member || core.user.value.isAdmin)
  }

  /** The user is banned in the current community. */
  predicate Banned(core: Core) {
    core.community.Some? && core.user.Some? && core.community.value.id in core.user.value.bannedIn
  }

  /** A person (not an organisation) in an organisations-only community. */
  predicate PrivateUserInOrganizationsCommunity(core: Core) {
    core.community.Some? && core.community.value.onlyOrganizations &&
    core.user.Some? && !core.user.value.isOrganization
  }

  /** The user still has to confirm an e-mail address to join this community. */
  predicate PendingConfirmation(core: Core) {
    core.community.Some? && core.user.Some? && core.community.value.id in core.user.value.pendingConfirmationIn
  }

  /** `cannot_access_without_joining`: an outsider is sent to the
      access-denied page when banned, and otherwise to the join form, with an
      invitation `code` parameter kept in the session for the join form. */
  function CannotAccessWithoutJoining(c: Context, code: Option<string>): (r: StepResult)
    ensures !r.Fatal?
    ensures r.Continue? <==> !Outsider(c.core)
    ensures r.Continue? ==> r.ctx == c
    ensures r.Halt? ==> r.response.status == Found && r.ctx.core == c.core && r.ctx.effects.flashKept
    ensures r.Halt? ==>
      r.ctx == c.(effects := c.effects.(flashKept := true, invitationCode := r.ctx.effects.invitationCode))
    ensures r.Halt? ==> (r.response.target == AccessDeniedPage <==> Banned(c.core))
    ensures r.Halt? ==> r.response.target in {AccessDeniedPage, NewMembershipPage}
    ensures r.ctx.effects.invitationCode != c.effects.invitationCode ==>
      r.Halt? && r.response.target == NewMembershipPage && code.Some? && r.ctx.effects.invitationCode == code
    ensures r.Halt? && r.response.target == NewMembershipPage && code.Some? ==>
      r.ctx.effects.invitationCode == code
  {
    if !Outsider(c.core) then Continue(c)
    else if Banned(c.core) then
      Halt(Redirect(AccessDeniedPage, Found), c.(effects := c.effects.(flashKept := true)))
    else
      var invitation := if code.Some? then code else c.effects.invitationCode;
      Halt(Redirect(NewMembershipPage, Found),
           c.(effects := c.effects.(invitationCode := invitation, flashKept := true)))
  }

  /** A banned outsider never sees the join form, even though being banned
      and not being a member hold at once. */
  lemma BannedOutsiderIsDenied(c: Context, code: Option<string>)
    requires Outsider(c.core) && Banned(c.core)
    ensures CannotAccessWithoutJoining(c, code) == Halt(Redirect(AccessDeniedPage, Found), CannotAccessWithoutJoining(c, code).ctx)
    ensures CannotAccessWithoutJoining(c, code).ctx.effects.invitationCode == c.effects.invitationCode
  {
  }

  /** `can_access_only_organizations_communities`: a private person in an
      organisations-only community is signed out, warned and sent to login. */
  function CanAccessOnlyOrganizationsCommunities(c: Context): (r: StepResult)
    ensures !r.Fatal?
    ensures r.Continue? <==> !PrivateUserInOrganizationsCommunity(c.core)
    ensures r.Continue? ==> r.ctx == c
    ensures r.Halt? ==>
      && r.response == Redirect(LoginPage, Found)
      && r.ctx.core == c.core
      && r.ctx.effects.signedOut
      && r.ctx.effects.warning == Some(CanNotLoginWithPrivateUser)
    ensures r.Halt? ==>
      r.ctx == c.(effects := c.effects.(signedOut := true, warning := Some(CanNotLoginWithPrivateUser)))
  {
    if PrivateUserInOrganizationsCommunity(c.core) then
      Halt(Redirect(LoginPage, Found),
           c.(effects := c.effects.(signedOut := true, warning := Some(CanNotLoginWithPrivateUser))))
    else Continue(c)
  }

  /** `check_email_confirmation`: a pending confirmation always sets the
      warning, and redirects to the confirmation-pending page unless the
      request is for the confirmation controller itself. */
  function CheckEmailConfirmation(c: Context, controller: string): (r: StepResult)
    ensures !r.Fatal?
    ensures r.Halt? <==> PendingConfirmation(c.core) && controller != "devise/confirmations"
    ensures r.Halt? ==> r.response == Redirect(ConfirmationPendingPage, Found)
    ensures r.ctx.core == c.core
    ensures PendingConfirmation(c.core) ==> r.ctx.effects.warning == Some(YouNeedToConfirmYourAccountFirst)
    ensures PendingConfirmation(c.core) ==>
      r.ctx == c.(effects := c.effects.(warning := Some(YouNeedToConfirmYourAccountFirst)))
    ensures !PendingConfirmation(c.core) ==> r == Continue(c)
  {
    if PendingConfirmation(c.core) then
      var warned := c.(effects := c.effects.(warning := Some(YouNeedToConfirmYourAccountFirst)));
      if controller != "devise/confirmations" then Halt(Redirect(ConfirmationPendingPage, Found), warned)
      else Continue(warned)
    else Continue(c)
  }
}

=== FILE: filters.dfy ===
/** The controller's before-filter chain: the declared filters with their
    `:except` lists, what each filter does to the request context, and the
    fold that runs them in order and stops at the first filter that redirects
    (or raises). */
module Filters {
  import opened Values
  import opened Snapshot
  import Locale
  import Tenancy
  import Transport
  import Access

  /** The before-filters, named after the controller's methods. */
  datatype Filter =
    | ForceSsl
    | CheckAuthToken
    | FetchLoggedInUser
    | FetchCommunity
    | RedirectToMarketplaceDomain
    | FetchCommunityMembership
    | SetLocale
    | GenerateEventId
    | SetDefaultUrlForMailer
    | FetchChargebeePlanData
    | FetchCommunityAdminStatus
    | FetchCommunityPlanExpirationStatus
    | WarnAboutMissingPaymentInfo
    | CannotAccessWithoutJoining
    | CanAccessOnlyOrganizationsCommunities
    | CheckEmailConfirmation
    | FetchTranslations
    | PushReportedAnalyticsEventToJs

  /** One `before_filter` declaration: the filter and the actions it skips. */
  datatype Entry = Entry(filter: Filter, except: set<string>)

  /** What the filters read besides the context: the request, the community
      directory, the config, the configured domain with its port stripped,
      and the available locales. */
  datatype Env = Env(
    req: Request,
    directory: seq<Community>,
    cfg: Config,
    appDomain: string,
    available: seq<AvailableLocale>)

  const JoinGateExcept: set<string> := {"confirmation_pending", "check_email_availability"}
  const EmailGateExcept: set<string> := {"confirmation_pending", "check_email_availability_and_validity"}

  /** The filters declared together in the first `before_filter` call. The
      first seven settle who, where and in which locale; the rest only
      record request state. */
  const Resolving: seq<Filter> :=
    [ForceSsl, CheckAuthToken, FetchLoggedInUser, FetchCommunity,
     RedirectToMarketplaceDomain, FetchCommunityMembership, SetLocale]
  const Recording: seq<Filter> :=
    [GenerateEventId, SetDefaultUrlForMailer, FetchChargebeePlanData, FetchCommunityAdminStatus,
     FetchCommunityPlanExpirationStatus, WarnAboutMissingPaymentInfo]

  /** Entries with no `:except` list. */
  function Plain(fs: seq<Filter>): (r: seq<Entry>)
    ensures |r| == |fs|
    ensures forall i :: 0 <= i < |fs| ==> r[i] == Entry(fs[i], {})
  {
    seq(|fs|, i requires 0 <= i < |fs| => Entry(fs[i], {}))
  }

  /** The later declarations: the gates with their `:except` lists, the
      translation fetch only when configured, and the analytics push last;
      none repeats a filter of the first call or of each other. */
  lemma LaterEntriesShape(cfg: Config)
    ensures var r := LaterEntries(cfg);
      && |r| > 0 && r[|r| - 1] == Entry(PushReportedAnalyticsEventToJs, {})
      && (forall i :: 0 <= i < |r| && r[i].except != {} ==>
            r[i].filter == CannotAccessWithoutJoining || r[i].filter == CheckEmailConfirmation)
      && (forall i :: 0 <= i < |r| ==> r[i].filter !in Resolving + Recording)
      && (forall i, j :: 0 <= i < j < |r| ==> r[i].filter != r[j].filter)
      && ((exists i :: 0 <= i < |r| && r[i].filter == FetchTranslations) <==>
            cfg.updateTranslationsOnEveryPageLoad == Some("true"))
  {
    var r := LaterEntries(cfg);
    if cfg.updateTranslationsOnEveryPageLoad == Some("true") {
      assert r[3].filter == FetchTranslations;
    }
  }

  /** The declarations in order: the first `before_filter` call, then the
      separately declared gates and the last filters. */
  function BeforeFilters(cfg: Config): (r: seq<Entry>)
    ensures |r| > |Resolving + Recording|
    ensures r[|r| - 1] == Entry(PushReportedAnalyticsEventToJs, {})
    ensures forall i :: 0 <= i < |Resolving + Recording| ==> r[i] == Entry((Resolving + Recording)[i], {})
  {
    LaterEntriesShape(cfg);
    Plain(Resolving + Recording) + LaterEntries(cfg)
  }

  lemma FirstCallDistinct()
    ensures forall i, j :: 0 <= i < j < |Resolving + Recording| ==> (Resolving + Recording)[i] != (Resolving + Recording)[j]
  {
  }

  /** No filter is declared twice. */
  lemma NoFilterDeclaredTwice(cfg: Config)
    ensures forall i, j :: 0 <= i < j < |BeforeFilters(cfg)| ==> BeforeFilters(cfg)[i].filter != BeforeFilters(cfg)[j].filter
  {
    var first := Plain(Resolving + Recording);
    var later := LaterEntries(cfg);
    var r := BeforeFilters(cfg);
    assert r == first + later;
    FirstCallDistinct();
    LaterEntriesShape(cfg);
    forall i, j | 0 <= i < j < |r|
      ensures r[i].filter != r[j].filter
    {
      if j >= |first| {
        assert r[j] == later[j - |first|];
        if i >= |first| {
          assert r[i] == later[i - |first|];
        } else {
          assert r[i].filter in Resolving + Recording;
        }
      }
    }
  }

  /** Only the join gate and the e-mail gate carry an `:except` list, and the
      translation fetch is declared exactly when the config asks for it. */
  lemma DeclaredExceptions(cfg: Config)
    ensures forall i :: 0 <= i < |BeforeFilters(cfg)| && BeforeFilters(cfg)[i].except != {} ==>
      BeforeFilters(cfg)[i].filter == CannotAccessWithoutJoining || BeforeFilters(cfg)[i].filter == CheckEmailConfirmation
    ensures (exists i :: 0 <= i < |BeforeFilters(cfg)| && BeforeFilters(cfg)[i].filter == FetchTranslations) <==>
      cfg.updateTranslationsOnEveryPageLoad == Some("true")
  {
    var first := Plain(Resolving + Recording);
    var later := LaterEntries(cfg);
    var r := BeforeFilters(cfg);
    assert r == first + later;
    LaterEntriesShape(cfg);
    assert forall i :: 0 <= i < |later| ==> r[|first| + i] == later[i];
    forall i | 0 <= i < |r|
      ensures r[i].except != {} ==> r[i].filter == CannotAccessWithoutJoining || r[i].filter == CheckEmailConfirmation
      ensures r[i].filter == FetchTranslations ==> i >= |first|
    {
      if i >= |first| { assert r[i] == later[i - |first|]; }
    }
  }

  /** The declarations after the first call. The translation fetch is
      declared only when the config asks for it, a decision taken once when
      the class loads. */
  function LaterEntries(cfg: Config): seq<Entry> {
    [Entry(CannotAccessWithoutJoining, JoinGateExcept)]
    + [Entry(CanAccessOnlyOrganizationsCommunities, {})]
    + [Entry(CheckEmailConfirmation, EmailGateExcept)]
    + TranslationEntries(cfg)
    + [Entry(PushReportedAnalyticsEventToJs, {})]
  }

  function TranslationEntries(cfg: Config): seq<Entry> {
    if cfg.updateTranslationsOnEveryPageLoad == Some("true") then [Entry(FetchTranslations, {})] else []
  }

  /** The filters that run for an action: the declared ones, in order,
      without those whose `:except` list names the action. Rails lets a later
      declaration of the same filter replace an earlier one; no filter is
      declared twice here (see `BeforeFilters`), so that case does not arise. */
  function Applicable(entries: seq<Entry>, action: string): (r: seq<Filter>)
    ensures |r| <= |entries|
    ensures forall f :: f in r <==>
      exists i :: 0 <= i < |entries| && entries[i].filter == f && action !in entries[i].except
    decreases |entries|
  {
    if |entries| == 0 then []
    else
      var rest := Applicable(entries[1..], action);
      assert forall i :: 1 <= i < |entries| ==> entries[i] == entries[1..][i - 1];
      if action in entries[0].except then rest else [entries[0].filter] + rest
  }

  lemma {:induction false} ApplicableAppend(a: seq<Entry>, b: seq<Entry>, action: string)
    ensures Applicable(a + b, action) == Applicable(a, action) + Applicable(b, action)
    decreases |a|
  {
    if |a| == 0 {
      assert a + b == b;
    } else {
      assert (a + b)[0] == a[0];
      assert (a + b)[1..] == a[1..] + b;
      ApplicableAppend(a[1..], b, action);
    }
  }

  lemma {:induction false} ApplicablePlain(fs: seq<Filter>, action: string)
    ensures Applicable(Plain(fs), action) == fs
    decreases |fs|
  {
    if |fs| > 0 {
      assert Plain(fs)[1..] == Plain(fs[1..]);
      ApplicablePlain(fs[1..], action);
      assert fs == [fs[0]] + fs[1..];
    }
  }

  /** The filters that run for a request to `action`. */
  function Chain(cfg: Config, action: string): seq<Filter> {
    Applicable(BeforeFilters(cfg), action)
  }

  /** The gates and the last filters, once `:except` has been applied. */
  function Gates(cfg: Config, action: string): seq<Filter> {
    (if action in JoinGateExcept then [] else [CannotAccessWithoutJoining])
    + [CanAccessOnlyOrganizationsCommunities]
    + (if action in EmailGateExcept then [] else [CheckEmailConfirmation])
    + (if cfg.updateTranslationsOnEveryPageLoad == Some("true") then [FetchTranslations] else [])
    + [PushReportedAnalyticsEventToJs]
  }

  lemma ApplicableCons(e: Entry, rest: seq<Entry>, action: string)
    ensures Applicable([e] + rest, action)
         == (if action in e.except then [] else [e.filter]) + Applicable(rest, action)
  {
    assert ([e] + rest)[0] == e;
    assert ([e] + rest)[1..] == rest;
  }

  lemma TailApplicable(cfg: Config, action: string)
    ensures Applicable(TranslationEntries(cfg) + [Entry(PushReportedAnalyticsEventToJs, {})], action)
         == (if cfg.updateTranslationsOnEveryPageLoad == Some("true") then [FetchTranslations] else [])
            + [PushReportedAnalyticsEventToJs]
  {
    var tr := TranslationEntries(cfg);
    var push := [Entry(PushReportedAnalyticsEventToJs, {})];
    ApplicableAppend(tr, push, action);
    ApplicableCons(push[0], [], action);
    if tr != [] { ApplicableCons(tr[0], [], action); }
  }

  lemma LaterApplicable(cfg: Config, action: string)
    ensures Applicable(LaterEntries(cfg), action) == Gates(cfg, action)
  {
    var t3 := TranslationEntries(cfg) + [Entry(PushReportedAnalyticsEventToJs, {})];
    var t2 := [Entry(CheckEmailConfirmation, EmailGateExcept)] + t3;
    var t1 := [Entry(CanAccessOnlyOrganizationsCommunities, {})] + t2;
    assert LaterEntries(cfg) == [Entry(CannotAccessWithoutJoining, JoinGateExcept)] + t1;
    TailApplicable(cfg, action);
    ApplicableCons(Entry(CheckEmailConfirmation, EmailGateExcept), t3, action);
    ApplicableCons(Entry(CanAccessOnlyOrganizationsCommunities, {}), t2, action);
    ApplicableCons(Entry(CannotAccessWithoutJoining, JoinGateExcept), t1, action);
  }

  /** The chain for an action: the resolving filters, the recording filters,
      then the gates the action does not skip. */
  lemma ChainShape(cfg: Config, action: string)
    ensures Chain(cfg, action) == Resolving + Recording + Gates(cfg, action)
  {
    ApplicableAppend(Plain(Resolving + Recording), LaterEntries(cfg), action);
    ApplicablePlain(Resolving + Recording, action);
    LaterApplicable(cfg, action);
  }

  /** The join gate is skipped for `confirmation_pending` and
      `check_email_availability`, the e-mail gate for `confirmation_pending`
      and `check_email_availability_and_validity`; the organisations-only gate
      always runs. */
  lemma GatesForAction(cfg: Config, action: string)
    ensures CannotAccessWithoutJoining in Chain(cfg, action) <==> action !in JoinGateExcept
    ensures CheckEmailConfirmation in Chain(cfg, action) <==> action !in EmailGateExcept
    ensures CanAccessOnlyOrganizationsCommunities in Chain(cfg, action)
  {
    ChainShape(cfg, action);
    assert CannotAccessWithoutJoining !in Resolving + Recording;
    assert CheckEmailConfirmation !in Resolving + Recording;
  }

  /** The filters that can redirect: the HTTPS upgrade, the token login, the
      community lookup, the canonical-domain redirect and the three gates. */
  predicate CanRedirect(f: Filter) {
    f == ForceSsl || f == CheckAuthToken || f == FetchCommunity || f == RedirectToMarketplaceDomain
    || f == CannotAccessWithoutJoining || f == CanAccessOnlyOrganizationsCommunities || f == CheckEmailConfirmation
  }

  /** What one filter does to the context. Only `set_locale` can raise, and
      only the filters named by `CanRedirect` can redirect. */
  function Apply(f: Filter, env: Env, c: Context): (r: StepResult)
    ensures r.Fatal? ==> f == SetLocale
    ensures r.Halt? ==> CanRedirect(f)
  {
    match f
    case ForceSsl =>
      (match Transport.ForceSsl(env.req, env.cfg)
       case Some(resp) => Halt(resp, c)
       case None => Continue(c))
    case CheckAuthToken =>
      (match Transport.CheckAuthToken(env.req)
       case Some(login) => Halt(login.1, c.(core := c.core.(user := Some(login.0))))
       case None => Continue(c))
    case FetchLoggedInUser =>
      if env.req.signedInUser.Some? then Continue(c.(core := c.core.(user := env.req.signedInUser)))
      else Continue(c)
    case FetchCommunity =>
      (match Tenancy.FetchCommunity(env.req.host, env.directory, env.cfg, env.appDomain)
       case Resolved(community) => Continue(c.(core := c.core.(community := Some(community))))
       case Unresolved(resp) => Halt(resp, c.(core := c.core.(community := None))))
    case RedirectToMarketplaceDomain =>
      (match Tenancy.RedirectToMarketplaceDomain(c.core.community, env.req)
       case Some(resp) => Halt(resp, c)
       case None => Continue(c))
    case FetchCommunityMembership =>
      if c.core.user.Some? && c.core.community.Some? && c.core.community.value.id in c.core.user.value.acceptedIn
      then Continue(c.(core := c.core.(member := true)))
      else Continue(c)
    case SetLocale =>
      (match Locale.SetLocale(c.core.user, c.core.community, env.req.params, env.req.fullpath, env.available)
       case Unavailable(locale) => Fatal(locale)
       case Chosen(choice) =>
         Continue(Context(
           c.core.(locale := Some(choice.locale)),
           c.effects.(returnTo := Some(choice.returnTo),
                      customization := if c.core.community.Some? then choice.customization
                                       else c.effects.customization))))
    case GenerateEventId =>
      Continue(c.(effects := c.effects.(eventIdGenerated := true)))
    case SetDefaultUrlForMailer =>
      var host := if c.core.community.Some? then c.core.community.value.fullDomain else "www." + env.cfg.domain;
      Continue(c.(effects := c.effects.(mailer := Some(MailerUrl(host, env.cfg.alwaysUseSsl)))))
    case CannotAccessWithoutJoining =>
      Access.CannotAccessWithoutJoining(c, env.req.params.code)
    case CanAccessOnlyOrganizationsCommunities =>
      Access.CanAccessOnlyOrganizationsCommunities(c)
    case CheckEmailConfirmation =>
      Access.CheckEmailConfirmation(c, env.req.params.controller)
    case _ =>
      Continue(c)
  }

  /** `fetch_logged_in_user`: never redirects; the signed-in person becomes
      the current user, and without one the context stays as it was. */
  lemma FetchLoggedInUserStep(env: Env, c: Context)
    ensures var r := Apply(FetchLoggedInUser, env, c);
      && r.Continue?
      && r.ctx.effects == c.effects
      && r.ctx.core.community == c.core.community && r.ctx.core.member == c.core.member
      && r.ctx.core.locale == c.core.locale
      && (env.req.signedInUser.Some? ==> r.ctx.core.user == env.req.signedInUser)
      && (env.req.signedInUser.None? ==> r.ctx == c)
  {
  }

  /** `fetch_community_membership`: never redirects; it records a membership
      exactly when the user has an accepted one in the current community, and
      never clears one. */
  lemma FetchCommunityMembershipStep(env: Env, c: Context)
    ensures var r := Apply(FetchCommunityMembership, env, c);
      && r.Continue?
      && r.ctx.effects == c.effects
      && r.ctx.core.user == c.core.user && r.ctx.core.community == c.core.community
      && r.ctx.core.locale == c.core.locale
      && (r.ctx.core.member <==>
            || c.core.member
            || (c.core.user.Some? && c.core.community.Some? && c.core.community.value.id in c.core.user.value.acceptedIn))
  {
  }

  /** `generate_event_id`: never redirects, and marks the event id as
      generated without touching anything else. */
  lemma GenerateEventIdStep(env: Env, c: Context)
    ensures var r := Apply(GenerateEventId, env, c);
      && r.Continue?
      && r.ctx.core == c.core
      && r.ctx.effects.eventIdGenerated
      && r.ctx.effects.(eventIdGenerated := c.effects.eventIdGenerated) == c.effects
  {
  }

  /** `set_default_url_for_mailer`: never redirects; the mailer host is the
      community's full domain, or "www." and the configured domain without a
      community, and the protocol is https exactly when `always_use_ssl` is set. */
  lemma SetDefaultUrlForMailerStep(env: Env, c: Context)
    ensures var r := Apply(SetDefaultUrlForMailer, env, c);
      && r.Continue?
      && r.ctx.core == c.core
      && r.ctx.effects.mailer.Some?
      && (c.core.community.Some? ==> r.ctx.effects.mailer.value.host == c.core.community.value.fullDomain)
      && (c.core.community.None? ==> r.ctx.effects.mailer.value.host == "www." + env.cfg.domain)
      && (r.ctx.effects.mailer.value.https <==> env.cfg.alwaysUseSsl)
      && r.ctx.effects.(mailer := c.effects.mailer) == c.effects
  {
  }

  /** Run the filters in order; the first one that halts or raises ends the
      run, and the filters after it do not run. */
  function Run(fs: seq<Filter>, env: Env, c: Context): (r: StepResult)
    ensures r.Fatal? ==> SetLocale in fs
    decreases |fs|
  {
    if |fs| == 0 then Continue(c)
    else
      match Apply(fs[0], env, c)
      case Continue(next) => Run(fs[1..], env, next)
      case Halt(resp, last) => Halt(resp, last)
      case Fatal(locale) => Fatal(locale)
  }

  /** A run redirects only if one of its filters can redirect. */
  lemma {:induction false} RunHaltsOnlyAtRedirects(fs: seq<Filter>, env: Env, c: Context)
    ensures Run(fs, env, c).Halt? ==> exists i :: 0 <= i < |fs| && CanRedirect(fs[i])
    decreases |fs|
  {
    if |fs| > 0 && Apply(fs[0], env, c).Continue? {
      RunHaltsOnlyAtRedirects(fs[1..], env, Apply(fs[0], env, c).ctx);
      if Run(fs[1..], env, Apply(fs[0], env, c).ctx).Halt? {
        var i :| 0 <= i < |fs[1..]| && CanRedirect(fs[1..][i]);
        assert fs[i + 1] == fs[1..][i];
      }
    }
  }

  /** Carry on with `fs` after a result, unless the result ended the run. */
  function AndThen(r: StepResult, fs: seq<Filter>, env: Env): StepResult {
    match r
    case Continue(next) => Run(fs, env, next)
    case Halt(_, _) => r
    case Fatal(_) => r
  }

  /** Running `a + b` is running `a`, then `b` only if `a` let the request through. */
  lemma {:induction false} RunAppend(a: seq<Filter>, b: seq<Filter>, env: Env, c: Context)
    ensures Run(a + b, env, c) == AndThen(Run(a, env, c), b, env)
    decreases |a|
  {
    if |a| == 0 {
      assert a + b == b;
    } else {
      assert (a + b)[0] == a[0];
      assert (a + b)[1..] == a[1..] + b;
      match Apply(a[0], env, c)
      case Continue(next) => RunAppend(a[1..], b, env, next);
      case Halt(_, _) =>
      case Fatal(_) =>
    }
  }

  /** Short-circuit: once a run halts or raises, appending filters changes
      nothing, so none of their effects happen. */
  lemma ShortCircuit(a: seq<Filter>, b: seq<Filter>, env: Env, c: Context)
    requires !Run(a, env, c).Continue?
    ensures Run(a + b, env, c) == Run(a, env, c)
  {
    RunAppend(a, b, env, c);
  }

  /** The filters that change the facts the gates decide on. */
  predicate ChangesCore(f: Filter) {
    f == FetchLoggedInUser || f == FetchCommunity || f == FetchCommunityMembership || f == SetLocale
  }

  /** Whether a filter that leaves the core alone redirects, as a function of
      the core: the HTTPS upgrade, the token login, the canonical-domain
      redirect and the three gates. */
  predicate Blocks(f: Filter, env: Env, core: Core) {
    match f
    case ForceSsl => Transport.ForceSsl(env.req, env.cfg).Some?
    case CheckAuthToken => env.req.tokenUser.Some?
    case RedirectToMarketplaceDomain => Tenancy.RedirectToMarketplaceDomain(core.community, env.req).Some?
    case CannotAccessWithoutJoining => Access.Outsider(core)
    case CanAccessOnlyOrganizationsCommunities => Access.PrivateUserInOrganizationsCommunity(core)
    case CheckEmailConfirmation =>
      Access.PendingConfirmation(core) && env.req.params.controller != "devise/confirmations"
    case _ => false
  }

  /** A filter that leaves the core alone never raises, redirects exactly when
      `Blocks` says so, and its redirect depends only on the core. */
  lemma ApplyDecidedByCore(f: Filter, env: Env, c: Context, d: Context)
    requires !ChangesCore(f)
    requires c.core == d.core
    ensures !Apply(f, env, c).Fatal?
    ensures Apply(f, env, c).Halt? <==> Blocks(f, env, c.core)
    ensures Apply(f, env, c).Continue? ==> Apply(f, env, c).ctx.core == c.core
    ensures Apply(f, env, c).Halt? ==> Apply(f, env, d).Halt? && Apply(f, env, d).response == Apply(f, env, c).response
  {
  }

  /** Over filters that leave the core alone, the run reaches the end exactly
      when no filter blocks on the starting core, and then the core is unchanged. */
  lemma {:induction false} RunDecidedByCore(fs: seq<Filter>, env: Env, c: Context)
    requires forall i :: 0 <= i < |fs| ==> !ChangesCore(fs[i])
    ensures !Run(fs, env, c).Fatal?
    ensures Run(fs, env, c).Continue? <==> forall i :: 0 <= i < |fs| ==> !Blocks(fs[i], env, c.core)
    ensures Run(fs, env, c).Continue? ==> Run(fs, env, c).ctx.core == c.core
    decreases |fs|
  {
    if |fs| > 0 {
      ApplyDecidedByCore(fs[0], env, c, c);
      match Apply(fs[0], env, c)
      case Continue(next) =>
        RunDecidedByCore(fs[1..], env, next);
        assert forall i :: 1 <= i < |fs| ==> fs[i] == fs[1..][i - 1];
      case Halt(_, _) =>
      case Fatal(_) =>
    }
  }

  /** Over filters that leave the core alone, the first blocking filter
      decides the response. */
  lemma {:induction false} FirstBlockDecides(fs: seq<Filter>, env: Env, c: Context, k: nat)
    requires forall i :: 0 <= i < |fs| ==> !ChangesCore(fs[i])
    requires k < |fs| && Blocks(fs[k], env, c.core)
    requires forall i :: 0 <= i < k ==> !Blocks(fs[i], env, c.core)
    ensures Run(fs, env, c).Halt?
    ensures Run(fs, env, c).response == Apply(fs[k], env, c).response
    decreases k
  {
    ApplyDecidedByCore(fs[0], env, c, c);
    if k > 0 {
      var next := Apply(fs[0], env, c).ctx;
      ApplyDecidedByCore(fs[k], env, c, next);
      FirstBlockDecides(fs[1..], env, next, k - 1);
    }
  }

  /** A run whose first filter continues goes on from that filter's context. */
  lemma RunCons(fs: seq<Filter>, env: Env, c: Context)
    requires |fs| > 0 && Apply(fs[0], env, c).Continue?
    ensures Run(fs, env, c) == Run(fs[1..], env, Apply(fs[0], env, c).ctx)
  {
  }

  /** One step of a run that gets through: the first filter continues, and
      the run goes on from its context. */
  lemma RunStep(fs: seq<Filter>, env: Env, c: Context)
    requires |fs| > 0 && Run(fs, env, c).Continue?
    ensures Apply(fs[0], env, c).Continue?
    ensures Run(fs, env, c) == Run(fs[1..], env, Apply(fs[0], env, c).ctx)
  {
  }

  /** Getting past the HTTPS upgrade and the token exchange. */
  lemma PassesTransport(env: Env, c: Context)
    requires Apply(ForceSsl, env, c).Continue?
    requires Apply(CheckAuthToken, env, Apply(ForceSsl, env, c).ctx).Continue?
    ensures Apply(CheckAuthToken, env, Apply(ForceSsl, env, c).ctx).ctx == c
    ensures env.cfg.alwaysUseSsl ==> Transport.SslExempt(env.req)
    ensures env.req.tokenUser.None?
  {
  }

  /** Getting past the user and community lookups. */
  lemma IdentifiesUserAndCommunity(env: Env, c: Context)
    requires Apply(FetchCommunity, env, Apply(FetchLoggedInUser, env, c).ctx).Continue?
    ensures var d := Apply(FetchCommunity, env, Apply(FetchLoggedInUser, env, c).ctx).ctx;
      && d.effects == c.effects
      && d.core.user == (if env.req.signedInUser.Some? then env.req.signedInUser else c.core.user)
      && d.core.community == Tenancy.DefaultCommunityFetchStrategy(env.req.host, env.directory, env.appDomain)
      && d.core.community.Some?
      && d.core.member == c.core.member && d.core.locale == c.core.locale
  {
  }

  /** Getting past the domain redirect, then looking up the membership. */
  lemma SettlesDomainAndMembership(env: Env, c: Context)
    requires !c.core.member
    requires Apply(RedirectToMarketplaceDomain, env, c).Continue?
    ensures var d := Apply(FetchCommunityMembership, env, Apply(RedirectToMarketplaceDomain, env, c).ctx).ctx;
      && d.effects == c.effects
      && d.core.user == c.core.user && d.core.community == c.core.community && d.core.locale == c.core.locale
      && (c.core.community.Some? ==> !Tenancy.NeedsRedirect(env.req.host, c.core.community.value.domain))
      && (d.core.member <==>
            c.core.user.Some? && c.core.community.Some? && c.core.community.value.id in c.core.user.value.acceptedIn)
  {
  }

  /** Getting past `set_locale`. */
  lemma SettlesLocale(env: Env, c: Context)
    requires Apply(SetLocale, env, c).Continue?
    ensures var d := Apply(SetLocale, env, c).ctx;
      && d.core.user == c.core.user && d.core.community == c.core.community && d.core.member == c.core.member
      && d.core.locale.Some? && Locale.IsAvailable(d.core.locale.value, env.available)
      && d.effects.eventIdGenerated == c.effects.eventIdGenerated && d.effects.mailer == c.effects.mailer
  {
  }

  /** Facts the resolving filters establish when they let a request
      through: it is not due an HTTPS upgrade, carries no login token, its
      user is the signed-in one, its community was found and is on its own
      domain, membership reflects an accepted membership, and the locale is
      an available one. Nothing has been recorded yet. */
  lemma ResolvingOutcome(env: Env)
    requires Run(Resolving, env, Initial(env.req)).Continue?
    ensures var c := Run(Resolving, env, Initial(env.req)).ctx;
      && (env.cfg.alwaysUseSsl ==> Transport.SslExempt(env.req))
      && env.req.tokenUser.None?
      && c.core.user == env.req.signedInUser
      && c.core.community == Tenancy.DefaultCommunityFetchStrategy(env.req.host, env.directory, env.appDomain)
      && c.core.community.Some?
      && !Tenancy.NeedsRedirect(env.req.host, c.core.community.value.domain)
      && (c.core.member <==> c.core.user.Some? && c.core.community.value.id in c.core.user.value.acceptedIn)
      && c.core.locale.Some? && Locale.IsAvailable(c.core.locale.value, env.available)
      && !c.effects.eventIdGenerated && c.effects.mailer.None?
  {
    var c0 := Initial(env.req);
    var fs := Resolving;
    assert fs[0] == ForceSsl && fs[1] == CheckAuthToken && fs[2] == FetchLoggedInUser && fs[3] == FetchCommunity;
    assert fs[4] == RedirectToMarketplaceDomain && fs[5] == FetchCommunityMembership && fs[6] == SetLocale;
    RunStep(fs, env, c0);
    var c1 := Apply(ForceSsl, env, c0).ctx;
    RunStep(fs[1..], env, c1);
    PassesTransport(env, c0);
    assert fs[1..][1..] == fs[2..];
    RunStep(fs[2..], env, c0);
    var c3 := Apply(FetchLoggedInUser, env, c0).ctx;
    assert fs[2..][1..] == fs[3..];
    RunStep(fs[3..], env, c3);
    IdentifiesUserAndCommunity(env, c0);
    var c4 := Apply(FetchCommunity, env, c3).ctx;
    assert fs[3..][1..] == fs[4..];
    RunStep(fs[4..], env, c4);
    var c5 := Apply(RedirectToMarketplaceDomain, env, c4).ctx;
    assert fs[4..][1..] == fs[5..];
    RunStep(fs[5..], env, c5);
    SettlesDomainAndMembership(env, c4);
    var c6 := Apply(FetchCommunityMembership, env, c5).ctx;
    assert fs[5..][1..] == fs[6..];
    RunStep(fs[6..], env, c6);
    SettlesLocale(env, c6);
    assert fs[6..][1..] == [];
  }

  /** Everything after the resolving filters leaves the core alone. */
  lemma LaterFiltersKeepCore(cfg: Config, action: string)
    ensures forall i :: 0 <= i < |Recording + Gates(cfg, action)| ==> !ChangesCore((Recording + Gates(cfg, action))[i])
  {
    var rest := Recording + Gates(cfg, action);
    forall i | 0 <= i < |rest|
      ensures !ChangesCore(rest[i])
    {
      assert rest[i] in rest;
    }
  }

  /** The chain is the resolving filters followed by the rest. */
  lemma ChainSplits(env: Env, action: string)
    ensures Run(Chain(env.cfg, action), env, Initial(env.req))
         == AndThen(Run(Resolving, env, Initial(env.req)), Recording + Gates(env.cfg, action), env)
  {
    ChainShape(env.cfg, action);
    assert Chain(env.cfg, action) == Resolving + (Recording + Gates(env.cfg, action));
    RunAppend(Resolving, Recording + Gates(env.cfg, action), env, Initial(env.req));
  }

  /** Where the gates sit after the recording filters. */
  lemma GatePositions(cfg: Config, action: string)
    ensures var rest := Recording + Gates(cfg, action);
      var org := if action in JoinGateExcept then |Recording| else |Recording| + 1;
      && (action !in JoinGateExcept ==> rest[|Recording|] == CannotAccessWithoutJoining)
      && org < |rest| && rest[org] == CanAccessOnlyOrganizationsCommunities
      && (action !in EmailGateExcept ==> org + 1 < |rest| && rest[org + 1] == CheckEmailConfirmation)
  {
  }

  /** Once the core is settled, getting through the rest of the chain means
      passing each gate the action does not skip, with the core unchanged. */
  lemma AdmittedByGates(env: Env, action: string, c: Context)
    requires Run(Recording + Gates(env.cfg, action), env, c).Continue?
    ensures Run(Recording + Gates(env.cfg, action), env, c).ctx.core == c.core
    ensures action !in JoinGateExcept ==> !Access.Outsider(c.core)
    ensures !Access.PrivateUserInOrganizationsCommunity(c.core)
    ensures action !in EmailGateExcept && Access.PendingConfirmation(c.core) ==>
      env.req.params.controller == "devise/confirmations"
  {
    LaterFiltersKeepCore(env.cfg, action);
    RunDecidedByCore(Recording + Gates(env.cfg, action), env, c);
    GatePositions(env.cfg, action);
  }

  /** A request that reaches the controller action has passed every check:
      it needs no HTTPS upgrade, carries no login token, has a community on
      its own domain and an available locale; unless the action skips the
      join gate, its user is absent, a member or an administrator; it is not a
      private person in an organisations-only community; and unless the action
      skips the e-mail gate, a pending confirmation lets it through only on the
      confirmation controller. */
  lemma ReachingHandler(env: Env, action: string)
    requires Run(Chain(env.cfg, action), env, Initial(env.req)).Continue?
    ensures var c := Run(Chain(env.cfg, action), env, Initial(env.req)).ctx;
      && (env.cfg.alwaysUseSsl ==> Transport.SslExempt(env.req))
      && env.req.tokenUser.None?
      && c.core.community.Some?
      && !Tenancy.NeedsRedirect(env.req.host, c.core.community.value.domain)
      && c.core.locale.Some? && Locale.IsAvailable(c.core.locale.value, env.available)
      && (action !in JoinGateExcept ==> !Access.Outsider(c.core))
      && !Access.PrivateUserInOrganizationsCommunity(c.core)
      && (action !in EmailGateExcept && Access.PendingConfirmation(c.core) ==>
            env.req.params.controller == "devise/confirmations")
  {
    ChainSplits(env, action);
    ResolvingOutcome(env);
    AdmittedByGates(env, action, Run(Resolving, env, Initial(env.req)).ctx);
  }

  /** The join gate runs before the organisations-only gate: a signed-in
      private person who is neither a member nor banned, in an
      organisations-only community, is sent to the join form, not to login. */
  lemma JoinGateComesFirst(env: Env, action: string)
    requires action !in JoinGateExcept
    requires Run(Resolving, env, Initial(env.req)).Continue?
    requires var core := Run(Resolving, env, Initial(env.req)).ctx.core;
      Access.Outsider(core) && !Access.Banned(core) && Access.PrivateUserInOrganizationsCommunity(core)
    ensures Run(Chain(env.cfg, action), env, Initial(env.req)).Halt?
    ensures Run(Chain(env.cfg, action), env, Initial(env.req)).response == Redirect(NewMembershipPage, Found)
  {
    ChainSplits(env, action);
    JoinGateDecides(env, action, Run(Resolving, env, Initial(env.req)).ctx);
  }

  /** After the resolving filters, an outsider who is not banned is stopped
      by the join gate whatever the later gates would say. */
  lemma JoinGateDecides(env: Env, action: string, c: Context)
    requires action !in JoinGateExcept
    requires Access.Outsider(c.core) && !Access.Banned(c.core)
    ensures Run(Recording + Gates(env.cfg, action), env, c).Halt?
    ensures Run(Recording + Gates(env.cfg, action), env, c).response == Redirect(NewMembershipPage, Found)
  {
    var rest := Recording + Gates(env.cfg, action);
    LaterFiltersKeepCore(env.cfg, action);
    GatePositions(env.cfg, action);
    var k := |Recording|;
    assert forall i :: 0 <= i < k ==> rest[i] == Recording[i];
    FirstBlockDecides(rest, env, c, k);
  }

  /** The filters that record per-request state for later use: the event id
      and the mailer's default URL. */
  predicate Records(f: Filter) {
    f == GenerateEventId || f == SetDefaultUrlForMailer
  }

  /** Filters that do not record leave the recorded state as they found it,
      whether the run continues or halts. */
  lemma {:induction false} RunKeepsRecords(fs: seq<Filter>, env: Env, c: Context)
    requires forall i :: 0 <= i < |fs| ==> !Records(fs[i])
    ensures !Run(fs, env, c).Fatal? ==>
      && Run(fs, env, c).ctx.effects.eventIdGenerated == c.effects.eventIdGenerated
      && Run(fs, env, c).ctx.effects.mailer == c.effects.mailer
    decreases |fs|
  {
    if |fs| > 0 {
      match Apply(fs[0], env, c)
      case Continue(next) =>
        assert forall i :: 0 <= i < |fs[1..]| ==> fs[1..][i] == fs[i + 1];
        RunKeepsRecords(fs[1..], env, next);
      case Halt(_, _) =>
      case Fatal(_) =>
    }
  }

  /** A redirect (or error) from the resolving filters ends the request: the
      rest of the chain does not run, so no event id is generated and the
      mailer's URL is not set. */
  lemma EarlyHaltRecordsNothing(env: Env, action: string)
    requires !Run(Resolving, env, Initial(env.req)).Continue?
    ensures Run(Chain(env.cfg, action), env, Initial(env.req)) == Run(Resolving, env, Initial(env.req))
    ensures Run(Chain(env.cfg, action), env, Initial(env.req)).Halt? ==>
      && !Run(Chain(env.cfg, action), env, Initial(env.req)).ctx.effects.eventIdGenerated
      && Run(Chain(env.cfg, action), env, Initial(env.req)).ctx.effects.mailer.None?
  {
    var c0 := Initial(env.req);
    ChainShape(env.cfg, action);
    assert Chain(env.cfg, action) == Resolving + (Recording + Gates(env.cfg, action));
    ShortCircuit(Resolving, Recording + Gates(env.cfg, action), env, c0);
    RunKeepsRecords(Resolving, env, c0);
  }

  /** The recording filters always let the request through, having generated
      the event id and pointed the mailer at the community's full domain (or
      at "www." and the configured domain when there is no community). */
  lemma RecordingOutcome(env: Env, c: Context)
    ensures Run(Recording, env, c).Continue?
    ensures var d := Run(Recording, env, c).ctx;
      && d.core == c.core
      && d.effects.eventIdGenerated
      && d.effects.mailer == Some(MailerUrl(
           if c.core.community.Some? then c.core.community.value.fullDomain else "www." + env.cfg.domain,
           env.cfg.alwaysUseSsl))
  {
    var fs := Recording;
    var tail := [FetchChargebeePlanData, FetchCommunityAdminStatus,
                 FetchCommunityPlanExpirationStatus, WarnAboutMissingPaymentInfo];
    assert fs == [GenerateEventId] + ([SetDefaultUrlForMailer] + tail);
    GenerateEventIdStep(env, c);
    var c1 := Apply(GenerateEventId, env, c).ctx;
    RunCons(fs, env, c);
    SetDefaultUrlForMailerStep(env, c1);
    var c2 := Apply(SetDefaultUrlForMailer, env, c1).ctx;
    RunCons(fs[1..], env, c1);
    assert fs[1..][1..] == tail;
    QuietTail(env, c2);
  }

  /** The Chargebee, admin-status, plan-expiry and payment-warning filters
      change nothing the model tracks. */
  lemma QuietTail(env: Env, c: Context)
    ensures Run([FetchChargebeePlanData, FetchCommunityAdminStatus,
                 FetchCommunityPlanExpirationStatus, WarnAboutMissingPaymentInfo], env, c) == Continue(c)
  {
    var fs := [FetchChargebeePlanData, FetchCommunityAdminStatus,
               FetchCommunityPlanExpirationStatus, WarnAboutMissingPaymentInfo];
    assert fs[1..] == [FetchCommunityAdminStatus, FetchCommunityPlanExpirationStatus, WarnAboutMissingPaymentInfo];
    assert fs[1..][1..] == [FetchCommunityPlanExpirationStatus, WarnAboutMissingPaymentInfo];
    assert fs[1..][1..][1..] == [WarnAboutMissingPaymentInfo];
    assert fs[1..][1..][1..][1..] == [];
  }

  lemma GatesAreQuiet(cfg: Config, action: string)
    ensures forall i :: 0 <= i < |Gates(cfg, action)| ==>
      !ChangesCore(Gates(cfg, action)[i]) && !Records(Gates(cfg, action)[i])
  {
    var gates := Gates(cfg, action);
    forall i | 0 <= i < |gates|
      ensures !ChangesCore(gates[i]) && !Records(gates[i])
    {
      assert gates[i] in gates;
    }
  }

  /** A request that reaches the controller action has its event id and its
      mailer URL, the community's full domain. */
  lemma ReachingHandlerRecorded(env: Env, action: string)
    requires Run(Chain(env.cfg, action), env, Initial(env.req)).Continue?
    ensures var c := Run(Chain(env.cfg, action), env, Initial(env.req)).ctx;
      && c.effects.eventIdGenerated
      && c.core.community.Some?
      && c.effects.mailer == Some(MailerUrl(c.core.community.value.fullDomain, env.cfg.alwaysUseSsl))
  {
    var c0 := Initial(env.req);
    var gates := Gates(env.cfg, action);
    ChainShape(env.cfg, action);
    assert Chain(env.cfg, action) == Resolving + (Recording + gates);
    RunAppend(Resolving, Recording + gates, env, c0);
    ResolvingOutcome(env);
    var c1 := Run(Resolving, env, c0).ctx;
    RunAppend(Recording, gates, env, c1);
    RecordingOutcome(env, c1);
    var c2 := Run(Recording, env, c1).ctx;
    GatesAreQuiet(env.cfg, action);
    RunKeepsRecords(gates, env, c2);
    RunDecidedByCore(gates, env, c2);
  }
}

=== FILE: locale.dfy ===
/** Locale negotiation: `select_locale` and the parts of `set_locale` that
    decide the request's locale, its `@return_to` path and its community
    customization. */
module Locale {
  import opened Values
  import opened Strings
  import opened Snapshot

  /** The candidate is present (not nil, not empty) and among the supported locales. */
  predicate Offers(candidate: Option<string>, supported: seq<string>) {
    MaybeString(candidate).Some? && candidate.value in supported
  }

  /** Reference rule: the first candidate that is present and supported,
      otherwise the fallback. */
  function FirstSupported(candidates: seq<Option<string>>, supported: seq<string>, fallback: string): (r: string)
    ensures r in supported || r == fallback
    ensures forall i :: 0 <= i < |candidates| && Offers(candidates[i], supported) ==>
      r == candidates[i].value || exists j :: 0 <= j < i && Offers(candidates[j], supported)
    ensures (forall i :: 0 <= i < |candidates| ==> !Offers(candidates[i], supported)) ==> r == fallback
    decreases |candidates|
  {
    if |candidates| == 0 then fallback
    else if Offers(candidates[0], supported) then candidates[0].value
    else
      var r := FirstSupported(candidates[1..], supported, fallback);
      assert forall i :: 1 <= i < |candidates| ==> candidates[i] == candidates[1..][i - 1];
      r
  }

  /** `select_locale`: the user's locale, else the `locale` parameter, else
      the community default, where the first two count only when the community
      supports them.
      The community default is taken as it is, supported or not. */
  function SelectLocale(userLocale: Option<string>, localeParam: Option<string>,
                        communityLocales: seq<string>, communityDefault: string): (r: string)
    ensures r == FirstSupported([userLocale, localeParam], communityLocales, communityDefault)
  {
    var user := if Offers(userLocale, communityLocales) then userLocale else None;
    var param := if Offers(localeParam, communityLocales) then localeParam else None;
    if user.Some? then user.value
    else if param.Some? then param.value
    else communityDefault
  }

  /** Precedence, stated outright: a supported user locale wins; otherwise a
      supported parameter; otherwise the community default. */
  lemma SelectLocalePrecedence(userLocale: Option<string>, localeParam: Option<string>,
                               communityLocales: seq<string>, communityDefault: string)
    ensures Offers(userLocale, communityLocales) ==>
      SelectLocale(userLocale, localeParam, communityLocales, communityDefault) == userLocale.value
    ensures !Offers(userLocale, communityLocales) && Offers(localeParam, communityLocales) ==>
      SelectLocale(userLocale, localeParam, communityLocales, communityDefault) == localeParam.value
    ensures !Offers(userLocale, communityLocales) && !Offers(localeParam, communityLocales) ==>
      SelectLocale(userLocale, localeParam, communityLocales, communityDefault) == communityDefault
  {
    var c := [userLocale, localeParam];
    assert c[0] == userLocale && c[1] == localeParam;
  }

  /** A user locale the community supports makes the parameter irrelevant. */
  lemma UserLocaleOverridesParam(userLocale: Option<string>, p1: Option<string>, p2: Option<string>,
                                 communityLocales: seq<string>, communityDefault: string)
    requires Offers(userLocale, communityLocales)
    ensures SelectLocale(userLocale, p1, communityLocales, communityDefault)
         == SelectLocale(userLocale, p2, communityLocales, communityDefault)
  {
    SelectLocalePrecedence(userLocale, p1, communityLocales, communityDefault);
    SelectLocalePrecedence(userLocale, p2, communityLocales, communityDefault);
  }

  /** User `fr`, community supporting `en` and `es`, parameter `es`: `es`. */
  lemma UnsupportedUserLocaleFallsToParam()
    ensures SelectLocale(Some("fr"), Some("es"), ["en", "es"], "en") == "es"
  {
    SelectLocalePrecedence(Some("fr"), Some("es"), ["en", "es"], "en");
  }

  /** The signed-in user's locale preference through `Maybe`: nil without a
      user, and nil when the stored preference is nil or empty. */
  function UserLocale(user: Option<User>): (r: Option<string>)
    ensures r.Some? ==> r.value != "" && user.Some? && user.value.locale == r
    ensures user.Some? && user.value.locale.Some? && user.value.locale.value != "" ==> r == user.value.locale
  {
    if user.Some? then MaybeString(user.value.locale) else None
  }

  /** The community's supported locales; none without a community. */
  function CommunityLocales(community: Option<Community>): seq<string> {
    if community.Some? then community.value.locales else []
  }

  /** The community's default locale; "en" without a community or when it is nil or empty. */
  function CommunityDefaultLocale(community: Option<Community>): (r: string)
    ensures r != ""
    ensures community.Some? && MaybeString(community.value.defaultLocale).Some? ==>
      r == community.value.defaultLocale.value
    ensures community.None? || MaybeString(community.value.defaultLocale).None? ==> r == "en"
  {
    if community.Some? then MaybeString(community.value.defaultLocale).OrElse("en") else "en"
  }

  /** The code is the code of one of the available locales. */
  predicate IsAvailable(code: string, available: seq<AvailableLocale>) {
    exists i :: 0 <= i < |available| && available[i].code == code
  }

  /** The `@return_to` trim after the slice: drop the first character when
      some line starts with a slash. */
  function TrimLeadingSlash(s: string): string {
    if LineStartsWithSlash(s) then s[1..] else s
  }

  /** The `@return_to` path: `fullpath` with the first "/<locale param>"
      removed, then trimmed. */
  function ReturnTo(fullpath: string, localeParam: Option<string>): (r: string)
    ensures |r| <= |fullpath|
  {
    TrimLeadingSlash(SliceFirst(fullpath, "/" + localeParam.OrElse("")))
  }

  /** For a path that starts with the locale segment, `@return_to` is the rest
      of the path without its leading slash. */
  lemma ReturnToDropsLocaleSegment(loc: string, rest: string)
    requires rest == [] || rest[0] == '/'
    ensures ReturnTo("/" + loc + rest, Some(loc)) == if rest == [] then [] else rest[1..]
  {
    SliceFirstPrefix("/" + loc, rest);
    if rest != [] {
      assert LineStartsWithSlash(rest) by { assert rest[0] == '/'; }
    }
  }

  /** In general: the first "/<locale>" is cut out wherever it sits, and the
      remainder is trimmed. */
  lemma ReturnToRemovesFirstSegment(before: string, loc: string, after: string)
    requires forall j :: 0 <= j < |before| ==> !OccursAt("/" + loc, before + "/" + loc + after, j)
    ensures ReturnTo(before + "/" + loc + after, Some(loc)) == TrimLeadingSlash(before + after)
  {
    var path := before + "/" + loc + after;
    var sub := "/" + loc;
    assert path == before + sub + after;
    assert OccursAt(sub, path, |before|) by { assert path[|before|..|before| + |sub|] == sub; }
    var i := IndexOf(path, sub).value;
    assert i == |before|;
    var r := SliceFirst(path, sub);
    assert |r| == |before| + |after|;
    assert r[..i] + sub + r[i..] == before + sub + after;
    assert r[..i] == before by {
      assert (r[..i] + sub + r[i..])[..i] == r[..i];
      assert (before + sub + after)[..i] == before;
    }
    assert r[i..] == after by {
      assert (r[..i] + sub + r[i..])[i + |sub|..] == r[i..];
      assert (before + sub + after)[i + |sub|..] == after;
    }
    assert r == r[..i] + r[i..];
  }

  /** With no `locale` parameter the slice removes the first "/" of the path. */
  lemma ReturnToWithoutLocaleParam(before: string, after: string)
    requires '/' !in before
    ensures ReturnTo(before + "/" + after, None) == TrimLeadingSlash(before + after)
  {
    forall j | 0 <= j < |before|
      ensures !OccursAt("/" + "", before + "/" + "" + after, j)
    {
      assert (before + "/" + "" + after)[j] == before[j];
    }
    assert before + "/" + "" + after == before + "/" + after;
    assert "/" + "" == "/";
    ReturnToRemovesFirstSegment(before, "", after);
  }

  /** A locale segment that is not at the front is still cut out:
      "/li/en" with locale "en" leaves "/li", trimmed to "li". */
  lemma ReturnToInnerSegment()
    ensures ReturnTo("/li/en", Some("en")) == "li"
  {
    var path := "/li" + "/" + "en" + "";
    assert path == "/li/en";
    forall j | 0 <= j < |"/li"|
      ensures !OccursAt("/" + "en", path, j)
    {
      assert path[j..j + 3][1] == path[j + 1] != 'e';
    }
    ReturnToRemovesFirstSegment("/li", "en", "");
    assert "/li" + "" == "/li";
    assert LineStartsWithSlash("/li");
  }

  /** What `set_locale` settles when the locale is available. */
  datatype LocaleChoice = LocaleChoice(locale: string, returnTo: string, customization: Option<Customization>)

  datatype LocaleOutcome =
    | Chosen(choice: LocaleChoice)
    | Unavailable(locale: string)   // the `ArgumentError` "Locale ... not available"
  {
    function Locale(): string {
      match this
      case Chosen(c) => c.locale
      case Unavailable(l) => l
    }
  }

  /** `set_locale`: negotiate with the no-community defaults ([] and "en"),
      refuse a locale that is not available, then derive `@return_to` and the
      community customization for the chosen locale. */
  function SetLocale(user: Option<User>, community: Option<Community>, params: Params,
                     fullpath: string, available: seq<AvailableLocale>): (r: LocaleOutcome)
    ensures r.Locale() == SelectLocale(UserLocale(user), params.locale,
                                       CommunityLocales(community), CommunityDefaultLocale(community))
    ensures r.Chosen? <==> IsAvailable(r.Locale(), available)
    ensures community.None? ==> r.Locale() == "en"
    ensures r.Chosen? ==> r.choice.returnTo == ReturnTo(fullpath, params.locale)
    ensures r.Chosen? && community.None? ==> r.choice.customization.None?
    ensures r.Chosen? && r.choice.customization.Some? ==>
      community.Some? && r.choice.customization.value in community.value.customizations &&
      r.choice.customization.value.locale == r.choice.locale
    ensures r.Chosen? && r.choice.customization.Some? ==>
      exists k :: 0 <= k < |community.value.customizations| &&
        community.value.customizations[k] == r.choice.customization.value &&
        forall j :: 0 <= j < k ==> community.value.customizations[j].locale != r.choice.locale
    ensures r.Chosen? && community.Some? ==>
      (exists k :: 0 <= k < |community.value.customizations| &&
         community.value.customizations[k].locale == r.choice.locale) ==> r.choice.customization.Some?
  {
    var locale := SelectLocale(UserLocale(user), params.locale,
                               CommunityLocales(community), CommunityDefaultLocale(community));
    if !IsAvailable(locale, available) then Unavailable(locale)
    else
      var customization :=
        if community.Some? then First(community.value.customizations, (c: Customization) => c.locale == locale)
        else None;
      Chosen(LocaleChoice(locale, ReturnTo(fullpath, params.locale), customization))
  }

  /** `where(locale: ...).first`: of several customizations for the chosen
      locale, the one listed first is taken. */
  lemma SetLocaleTakesFirstCustomization(user: Option<User>, community: Community, params: Params,
                                         fullpath: string, available: seq<AvailableLocale>, k: nat)
    requires SetLocale(user, Some(community), params, fullpath, available).Chosen?
    requires k < |community.customizations|
    requires community.customizations[k].locale == SetLocale(user, Some(community), params, fullpath, available).Locale()
    requires forall j :: 0 <= j < k ==>
      community.customizations[j].locale != SetLocale(user, Some(community), params, fullpath, available).Locale()
    ensures SetLocale(user, Some(community), params, fullpath, available).choice.customization
         == Some(community.customizations[k])
  {
    var locale := SetLocale(user, Some(community), params, fullpath, available).Locale();
    FirstIsEarliest(community.customizations, (c: Customization) => c.locale == locale, k);
  }
}

=== FILE: snapshot.dfy ===
/** Immutable snapshots of everything a request's before-filters read: the
    request, the signed-in person, the community directory and the
    application config, plus the per-request context the filters build up. */
module Snapshot {
  import opened Values

  /** The request parameters the filters consult. */
  datatype Params = Params(
    locale: Option<string>,     // params[:locale]
    code: Option<string>,       // params[:code], an invitation code
    controller: string)         // params[:controller], e.g. "devise/confirmations"

  /** A person, with the per-community facts the gates ask about. */
  datatype User = User(
    id: nat,
    locale: Option<string>,
    isAdmin: bool,                    // `is_admin?`: site-wide administrator
    isOrganization: bool,             // `is_organization` (nil counts as false)
    acceptedIn: set<nat>,             // ids of communities with an accepted membership
    bannedIn: set<nat>,               // ids of communities where `banned_at?` holds
    pendingConfirmationIn: set<nat>)  // ids where `pending_email_confirmation_to_join?` holds

  /** A row of `community_customizations`. */
  datatype Customization = Customization(locale: string, name: string)

  /** A community (tenant), as stored in the directory. */
  datatype Community = Community(
    id: nat,
    domain: Option<string>,
    ident: Option<string>,
    locales: seq<string>,
    defaultLocale: Option<string>,
    onlyOrganizations: bool,
    fullDomain: string,
    customizations: seq<Customization>)

  /** The entries of `APP_CONFIG` the filters read. */
  datatype Config = Config(
    domain: string,
    alwaysUseSsl: bool,
    communityNotFoundRedirect: Option<string>,
    updateTranslationsOnEveryPageLoad: Option<string>)

  /** One entry of `available_locales`: a display name and a locale code. */
  datatype AvailableLocale = AvailableLocale(name: string, code: string)

  /** An inbound request, with the results of the collaborators it consults
      (session, one-time token exchange) already looked up. */
  datatype Request = Request(
    host: string,
    hostWithPort: string,
    protocol: string,                 // "http://" or "https://"
    fullpath: string,
    ssl: bool,
    via: Option<string>,              // the HTTP_VIA header
    params: Params,
    signedInUser: Option<User>,       // `current_person` when `person_signed_in?`
    tokenUser: Option<User>,          // the person a one-time `auth` token logs in, if any
    pathWithoutAuth: string,          // `fullpath` with the `auth` query parameter removed
    invitationCode: Option<string>)   // session[:invitation_code] before the request

  /** Where a redirect goes: a literal URL or a named route. */
  datatype Target =
    | Url(url: string)
    | NewCommunityPage          // new_community_path
    | CommunityNotFoundPage     // :community_not_found
    | AccessDeniedPage          // access_denied_tribe_memberships_path
    | NewMembershipPage         // new_tribe_membership_path
    | LoginPage                 // login_path
    | ConfirmationPendingPage   // sessions#confirmation_pending

  datatype Response = Redirect(target: Target, status: nat)

  /** `redirect_to`'s default status and `:moved_permanently`. */
  const Found: nat := 302
  const MovedPermanently: nat := 301

  /** The translated flash warnings the gates set. */
  datatype Notice = CanNotLoginWithPrivateUser | YouNeedToConfirmYourAccountFirst

  /** `ActionMailer::Base.default_url_options`. */
  datatype MailerUrl = MailerUrl(host: string, https: bool)

  /** The facts the access gates decide on. */
  datatype Core = Core(
    user: Option<User>,             // @current_user
    community: Option<Community>,   // @current_community
    member: bool,                   // @current_community_membership was found
    locale: Option<string>)         // I18n.locale once set_locale has run

  /** Everything else a filter writes: session, flash and view state. */
  datatype Effects = Effects(
    invitationCode: Option<string>,
    flashKept: bool,
    warning: Option<Notice>,
    signedOut: bool,
    returnTo: Option<string>,
    customization: Option<Customization>,
    eventIdGenerated: bool,
    mailer: Option<MailerUrl>)

  datatype Context = Context(core: Core, effects: Effects)

  /** What one filter, or a run of filters, produces: carry on with an
      updated context, halt with a redirect, or fail with an `ArgumentError`
      naming an unavailable locale. */
  datatype StepResult =
    | Continue(ctx: Context)
    | Halt(response: Response, ctx: Context)
    | Fatal(locale: string)

  /** The context a request starts with. */
  function Initial(req: Request): Context {
    Context(
      Core(None, None, false, None),
      Effects(req.invitationCode, false, None, false, None, None, false, None))
  }
}

=== FILE: strings.dfy ===
/** The Ruby `String` operations the controller uses: `chomp(suffix)`,
    `include?(sub)`, `slice!(sub)` and the `=~ /^\//` test. */
module Strings {
  import opened Values

  predicate IsSuffix(x: string, s: string) {
    |x| <= |s| && s[|s| - |x|..] == x
  }

  /** `sub` occurs in `s` starting at position `i`. */
  predicate OccursAt(sub: string, s: string, i: int) {
    0 <= i && i + |sub| <= |s| && s[i..i + |sub|] == sub
  }

  /** `s.chomp(suffix)` for a non-empty `suffix`: drop it from the end when it
      is there, otherwise leave `s` unchanged. (An empty argument means
      something else in Ruby, removing trailing newlines, and never occurs here.) */
  function Chomp(s: string, suffix: string): (r: string)
    requires |suffix| > 0
    ensures IsSuffix(suffix, s) ==> r + suffix == s
    ensures !IsSuffix(suffix, s) ==> r == s
  {
    if IsSuffix(suffix, s) then s[..|s| - |suffix|] else s
  }

  /** Chomping a suffix that was appended gives back the original string. */
  lemma ChompAppended(x: string, suffix: string)
    requires |suffix| > 0
    ensures Chomp(x + suffix, suffix) == x
  {
    assert (x + suffix)[|x|..] == suffix;
    assert IsSuffix(suffix, x + suffix);
    assert (x + suffix)[..|x|] == x;
  }

  lemma OccursAtShift(sub: string, s: string, j: int)
    requires 1 <= j && |s| > 0
    ensures OccursAt(sub, s, j) <==> OccursAt(sub, s[1..], j - 1)
  {
    if j + |sub| <= |s| {
      assert s[1..][j - 1..j - 1 + |sub|] == s[j..j + |sub|];
    }
  }

  /** Position of the first occurrence of `sub` in `s`. */
  function IndexOf(s: string, sub: string): (r: Option<nat>)
    ensures r.Some? ==> OccursAt(sub, s, r.value)
    ensures r.Some? ==> forall j :: 0 <= j < r.value ==> !OccursAt(sub, s, j)
    ensures r.None? ==> forall j :: 0 <= j <= |s| ==> !OccursAt(sub, s, j)
    decreases |s|
  {
    if |sub| > |s| then None
    else if s[..|sub|] == sub then Some(0)
    else
      var rest := IndexOf(s[1..], sub);
      assert !OccursAt(sub, s, 0);
      assert forall j :: 1 <= j <= |s| ==> (OccursAt(sub, s, j) <==> OccursAt(sub, s[1..], j - 1)) by {
        forall j | 1 <= j <= |s| { OccursAtShift(sub, s, j); }
      }
      match rest
      case None => None
      case Some(k) => Some(k + 1)
  }

  /** `s.include?(sub)`: `sub` occurs somewhere in `s`. */
  predicate Includes(s: string, sub: string)
    ensures Includes(s, sub) <==> exists i :: OccursAt(sub, s, i)
  {
    IndexOf(s, sub).Some?
  }

  /** `s.slice!(sub)`: remove the first occurrence of `sub`, if any. */
  function SliceFirst(s: string, sub: string): (r: string)
    ensures !Includes(s, sub) ==> r == s
    ensures Includes(s, sub) ==> |r| + |sub| == |s|
    ensures Includes(s, sub) ==>
      var i := IndexOf(s, sub).value; s == r[..i] + sub + r[i..]
  {
    match IndexOf(s, sub)
    case None => s
    case Some(i) =>
      var r := s[..i] + s[i + |sub|..];
      assert r[..i] == s[..i] && r[i..] == s[i + |sub|..];
      assert s == s[..i] + s[i..i + |sub|] + s[i + |sub|..];
      r
  }

  /** A prefix of `s` is its first occurrence, so `slice!` drops exactly it. */
  lemma SliceFirstPrefix(p: string, q: string)
    ensures SliceFirst(p + q, p) == q
  {
    assert OccursAt(p, p + q, 0) by { assert (p + q)[0..|p|] == p; }
    assert (p + q)[|p|..] == q;
  }

  /** `s =~ /^\//`: some line of `s` starts with a slash (`^` is a line anchor in Ruby). */
  predicate LineStartsWithSlash(s: string) {
    |s| > 0 && (s[0] == '/' || Includes(s, "\n/"))
  }

  /** The test is the line-anchored one: some position holds a slash that
      starts the string or follows a newline. */
  lemma LineStartsWithSlashMeaning(s: string)
    ensures LineStartsWithSlash(s) <==>
      exists i :: 0 <= i < |s| && s[i] == '/' && (i == 0 || s[i - 1] == '\n')
  {
    if exists i :: 0 <= i < |s| && s[i] == '/' && (i == 0 || s[i - 1] == '\n') {
      var i :| 0 <= i < |s| && s[i] == '/' && (i == 0 || s[i - 1] == '\n');
      if i > 0 {
        assert s[i - 1..i - 1 + |"\n/"|] == "\n/";
        assert OccursAt("\n/", s, i - 1);
      }
    }
    if Includes(s, "\n/") {
      var j :| OccursAt("\n/", s, j);
      assert s[j..j + 2] == "\n/";
      assert s[j + 1] == '/' && s[j] == '\n';
    }
  }
}

=== FILE: tenancy.dfy ===
/** Community resolution: the three-step lookup ladder, the redirect for an
    unresolved host, and the redirect to a community's canonical domain. */
module Tenancy {
  import opened Values
  import opened Strings
  import opened Snapshot

  /** Some community is registered under exactly this domain. */
  predicate HasDomain(directory: seq<Community>, host: string) {
    exists i :: 0 <= i < |directory| && directory[i].domain == Some(host)
  }

  /** Some community carries exactly this ident. */
  predicate HasIdent(directory: seq<Community>, ident: string) {
    exists i :: 0 <= i < |directory| && directory[i].ident == Some(ident)
  }

  /** The ident a host names: the host with ".<app domain>" chomped off. */
  function IdentOf(host: string, appDomain: string): string {
    Chomp(host, "." + appDomain)
  }

  /** `default_community_fetch_strategy`: by domain, else by ident, else the
      only community, else nil. `appDomain` is the configured domain with its
      port stripped. */
  function DefaultCommunityFetchStrategy(host: string, directory: seq<Community>, appDomain: string)
    : (r: Option<Community>)
    ensures r.Some? ==> r.value in directory
    ensures HasDomain(directory, host) ==> r.Some? && r.value.domain == Some(host)
    ensures !HasDomain(directory, host) && HasIdent(directory, IdentOf(host, appDomain)) ==>
      r.Some? && r.value.ident == Some(IdentOf(host, appDomain))
    ensures r.None? <==>
      !HasDomain(directory, host) && !HasIdent(directory, IdentOf(host, appDomain)) && |directory| != 1
  {
    var byDomain := First(directory, (c: Community) => c.domain == Some(host));
    if byDomain.Some? then byDomain
    else
      var ident := IdentOf(host, appDomain);
      var byIdent := First(directory, (c: Community) => c.ident == Some(ident));
      if byIdent.Some? then byIdent
      else if |directory| == 1 then Some(directory[0])
      else None
  }

  /** A host `<ident>.<app domain>` that no community claims as its domain
      resolves to the community with that ident. */
  lemma SubdomainResolvesByIdent(ident: string, appDomain: string, directory: seq<Community>, k: nat)
    requires k < |directory| && directory[k].ident == Some(ident)
    requires !HasDomain(directory, ident + "." + appDomain)
    ensures var r := DefaultCommunityFetchStrategy(ident + "." + appDomain, directory, appDomain);
      r.Some? && r.value.ident == Some(ident)
  {
    assert ident + "." + appDomain == ident + ("." + appDomain);
    ChompAppended(ident, "." + appDomain);
  }

  /** `sub.example.com` under the app domain `example.com` names ident `sub`. */
  lemma IdentOfSubdomain()
    ensures IdentOf("sub.example.com", "example.com") == "sub"
  {
    ChompAppended("sub", "." + "example.com");
    assert "sub" + ("." + "example.com") == "sub.example.com";
  }

  /** A single-community installation resolves every host. */
  lemma SingleCommunityAlwaysResolves(host: string, c: Community, appDomain: string)
    ensures DefaultCommunityFetchStrategy(host, [c], appDomain) == Some(c)
  {
  }

  /** The redirect for a host no community claims: the configured
      `community_not_found_redirect`, otherwise the new-community page when the
      directory is empty and the not-found page when it is not. */
  function UnresolvedRedirect(cfg: Config, communityCount: nat): (r: Response)
    ensures r.status == Found
    ensures MaybeString(cfg.communityNotFoundRedirect).Some? ==>
      r.target == Url(cfg.communityNotFoundRedirect.value)
    ensures MaybeString(cfg.communityNotFoundRedirect).None? ==>
      (r.target == NewCommunityPage <==> communityCount == 0)
    ensures MaybeString(cfg.communityNotFoundRedirect).None? ==>
      r.target in {NewCommunityPage, CommunityNotFoundPage}
  {
    match MaybeString(cfg.communityNotFoundRedirect)
    case Some(url) => Redirect(Url(url), Found)
    case None => Redirect(if communityCount == 0 then NewCommunityPage else CommunityNotFoundPage, Found)
  }

  datatype Resolution = Resolved(community: Community) | Unresolved(redirect: Response)

  /** `fetch_community`: run the default strategy for the request's host and
      redirect when it finds nothing. */
  function FetchCommunity(host: string, directory: seq<Community>, cfg: Config, appDomain: string)
    : (r: Resolution)
    ensures r.Resolved? <==> DefaultCommunityFetchStrategy(host, directory, appDomain).Some?
    ensures r.Resolved? ==> r.community in directory
    ensures r.Resolved? ==> DefaultCommunityFetchStrategy(host, directory, appDomain) == Some(r.community)
    ensures r.Unresolved? ==> r.redirect == UnresolvedRedirect(cfg, |directory|)
  {
    match DefaultCommunityFetchStrategy(host, directory, appDomain)
    case Some(c) => Resolved(c)
    case None => Unresolved(UnresolvedRedirect(cfg, |directory|))
  }

  /** An empty directory never resolves, and the request goes to the
      configured redirect or to the new-community page. */
  lemma EmptyDirectoryGoesToNewCommunity(host: string, cfg: Config, appDomain: string)
    ensures var r := FetchCommunity(host, [], cfg, appDomain);
      r.Unresolved? &&
      r.redirect.target == (if MaybeString(cfg.communityNotFoundRedirect).Some?
                            then Url(cfg.communityNotFoundRedirect.value) else NewCommunityPage)
  {
  }

  /** Several communities and no match: the configured redirect or the
      not-found page, never the new-community page. */
  lemma NoMatchAmongManyIsNotFound(host: string, directory: seq<Community>, cfg: Config, appDomain: string)
    requires |directory| > 1
    requires !HasDomain(directory, host) && !HasIdent(directory, IdentOf(host, appDomain))
    requires MaybeString(cfg.communityNotFoundRedirect).None?
    ensures FetchCommunity(host, directory, cfg, appDomain) == Unresolved(Redirect(CommunityNotFoundPage, Found))
  {
  }

  /** `needs_redirect?`: the community has a domain and the host is not it. */
  predicate NeedsRedirect(host: string, domain: Option<string>)
    ensures NeedsRedirect(host, domain) <==>
      domain.Some? && domain.value != host && !(forall i :: 0 <= i < |domain.value| ==> IsSpace(domain.value[i]))
    ensures NeedsRedirect(host, domain) ==> MaybeString(domain) == domain
    ensures domain == Some(host) ==> !NeedsRedirect(host, domain)
  {
    PresentIsNotBlank(domain);
    Present(domain) && host != domain.value
  }

  /** `redirect_to_marketplace_domain`: a 301 to the same path on the
      community's own domain when the request came in on another host. */
  function RedirectToMarketplaceDomain(community: Option<Community>, req: Request): (r: Option<Response>)
    ensures community.None? ==> r.None?
    ensures r.Some? <==> community.Some? && NeedsRedirect(req.host, community.value.domain)
    ensures r.Some? ==>
      r.value == Redirect(Url(req.protocol + community.value.domain.value + req.fullpath), MovedPermanently)
  {
    if community.Some? && NeedsRedirect(req.host, community.value.domain) then
      Some(Redirect(Url(req.protocol + community.value.domain.value + req.fullpath), MovedPermanently))
    else None
  }

  /** The redirect settles: the request it produces, arriving on the
      community's domain, is not redirected again. */
  lemma MarketplaceRedirectSettles(c: Community, req: Request)
    requires RedirectToMarketplaceDomain(Some(c), req).Some?
    ensures RedirectToMarketplaceDomain(Some(c), req.(host := c.domain.value)).None?
  {
  }
}

=== FILE: transport.dfy ===
/** The two filters that redirect before anything about the community is
    known: the HTTPS upgrade and the one-time login token exchange. */
module Transport {
  import opened Values
  import opened Strings
  import opened Snapshot

  /** The requests `force_ssl` leaves alone: already secure, forwarded by the
      Sharetribe proxy, or asking for `/robots.txt`. */
  predicate SslExempt(req: Request) {
    || req.ssl
    || (req.via.Some? && Includes(req.via.value, "sharetribe_proxy"))
    || req.fullpath == "/robots.txt"
  }

  /** `force_ssl`: with `always_use_ssl` set, redirect every non-exempt
      request to the same host, port and path over https. */
  function ForceSsl(req: Request, cfg: Config): (r: Option<Response>)
    ensures r.Some? <==>
      && cfg.alwaysUseSsl
      && !req.ssl
      && !(req.via.Some? && exists i :: OccursAt("sharetribe_proxy", req.via.value, i))
      && req.fullpath != "/robots.txt"
    ensures r.Some? ==> r.value == Redirect(Url("https://" + req.hostWithPort + req.fullpath), Found)
  {
    if cfg.alwaysUseSsl && !SslExempt(req) then
      Some(Redirect(Url("https://" + req.hostWithPort + req.fullpath), Found))
    else None
  }

  /** The upgrade settles: the same request arriving over https is not
      redirected again. */
  lemma ForceSslSettles(req: Request, cfg: Config)
    ensures ForceSsl(req.(ssl := true), cfg).None?
  {
  }

  /** A request forwarded by the proxy is never upgraded, whatever else the
      Via header says. */
  lemma ProxiedRequestIsNotUpgraded(req: Request, cfg: Config, before: string, after: string)
    requires req.via == Some(before + "sharetribe_proxy" + after)
    ensures ForceSsl(req, cfg).None?
  {
    var v := before + "sharetribe_proxy" + after;
    assert v[|before|..|before| + |"sharetribe_proxy"|] == "sharetribe_proxy";
    assert OccursAt("sharetribe_proxy", v, |before|);
  }

  /** `check_auth_token`: a token that logs someone in signs that person in
      and redirects to the same path with the `auth` parameter removed, so the
      token does not stay in the address. */
  function CheckAuthToken(req: Request): (r: Option<(User, Response)>)
    ensures r.Some? <==> req.tokenUser.Some?
    ensures r.Some? ==> r.value.0 == req.tokenUser.value
    ensures r.Some? ==> r.value.1 == Redirect(Url(req.pathWithoutAuth), Found)
  {
    match req.tokenUser
    case Some(u) => Some((u, Redirect(Url(req.pathWithoutAuth), Found)))
    case None => None
  }
}

=== FILE: values.dfy ===
/** Ruby values the controller relies on: `nil`-able values, `Maybe(...)`,
    `present?`/`blank?`, and "the first record that matches" lookups. */
module Values {

  /** A value that may be `nil`. */
  datatype Option<+T> = None | Some(value: T) {

    /** `x || default` for a value that is nil or present. */
    function OrElse(default: T): T {
      match this
      case Some(v) => v
      case None => default
    }
  }

  /** `Maybe(v)` on a string: nil and the empty string both become None. */
  function MaybeString(s: Option<string>): (r: Option<string>)
    ensures r.Some? <==> s.Some? && s.value != ""
    ensures r.Some? ==> r == s
  {
    if s.Some? && |s.value| > 0 then s else None
  }

  /** The whitespace that makes a string `blank?` (ASCII only). */
  predicate IsSpace(c: char) {
    c == ' ' || c == '\t' || c == '\n' || c == '\r' || c == '\U{B}' || c == '\U{C}'
  }

  /** `v.present?` for a string that may be nil. */
  predicate Present(s: Option<string>) {
    s.Some? && exists i :: 0 <= i < |s.value| && !IsSpace(s.value[i])
  }

  /** `present?` is the negation of `blank?`: a present string is never nil
      nor empty, so `Maybe` keeps it, and a string that is not present is nil
      or made of whitespace only. */
  lemma PresentIsNotBlank(s: Option<string>)
    ensures Present(s) ==> MaybeString(s) == s && s.Some?
    ensures !Present(s) <==> s.None? || forall i :: 0 <= i < |s.value| ==> IsSpace(s.value[i])
  {
  }

  /** Index of the first element satisfying `p`, as `where(...).first` sees a table. */
  function Find<T>(s: seq<T>, p: T -> bool): (r: Option<nat>)
    ensures r.Some? ==> r.value < |s| && p(s[r.value])
    ensures r.Some? ==> forall j :: 0 <= j < r.value ==> !p(s[j])
    ensures r.None? <==> forall j :: 0 <= j < |s| ==> !p(s[j])
    decreases |s|
  {
    if |s| == 0 then None
    else if p(s[0]) then Some(0)
    else
      match Find(s[1..], p)
      case None => None
      case Some(k) => Some(k + 1)
  }

  /** The first element satisfying `p`, if any. */
  function First<T>(s: seq<T>, p: T -> bool): (r: Option<T>)
    ensures r.Some? ==> r.value in s && p(r.value)
    ensures r.Some? ==> exists k :: 0 <= k < |s| && s[k] == r.value && forall j :: 0 <= j < k ==> !p(s[j])
    ensures r.None? <==> forall j :: 0 <= j < |s| ==> !p(s[j])
  {
    match Find(s, p)
    case Some(i) => Some(s[i])
    case None => None
  }

  /** `First` returns the element at the earliest matching position. */
  lemma FirstIsEarliest<T>(s: seq<T>, p: T -> bool, k: nat)
    requires k < |s| && p(s[k])
    requires forall j :: 0 <= j < k ==> !p(s[j])
    ensures First(s, p) == Some(s[k])
  {
  }
}
